=== FILE: README.md ===
# Swap-chain negotiation and delegates of the Neon engine, in Dafny

This project models two parts of the engine's core:

- the Vulkan swap-chain manager (`VulkanSwapChain`, `VulkanSwapChainSupportDetails`).
  It chooses a surface format, a present mode, an extent and an image count from a
  surface-capability snapshot, with or without a `SwapchainCreateInfo` configuration.
  It then creates the chain and one image view per image, and it destroys and
  recreates them;
- the delegate utilities (`Delegate<R(Args...)>`, `MulticastDelegate<Args...>`).

Everything is pure functions over immutable records:

- `vk_types.dfy` (module `VkTypes`) holds `uint32_t`, the `VkFormat`, `VkColorSpaceKHR`
  and `VkPresentModeKHR` enumerations, extents, surface formats and capabilities, and
  the per-component clamp. Each enumeration has an `Other…` case whose code excludes
  the named values, so every Vulkan value has exactly one representation.
- `support_details.dfy` (module `SupportDetails`) holds the capability snapshot and the
  three default selection rules.
- `swap_chain.dfy` (module `SwapChain`) holds the image-count rules, the negotiation of
  `create` and `createBy`, and the lifecycle.
  The swap chain is a record; `Create`, `CreateBy`, `Cleanup` and `Recreate` map one
  record to the next. `Cleanup` also returns the destroyed objects in destruction order.
- `delegate.dfy` (module `Delegates`) models a stored `std::function` as either a
  function value or an empty target. An execution either returns the result together
  with the record of calls made, or calls an empty target and throws
  `std::bad_function_call`. A broadcast records the calls it made and whether it ended by
  calling an empty listener. It takes a parameter `moved`, which says what an argument
  value becomes once a call has moved from it.

The environment enters as parameters:

- the snapshot that `VulkanSwapChainSupportDetails::query` would return (a `SupportDetails` value);
- the window provider's size (an `Extent2D`);
- the driver, a function from the negotiated `ChainRequest` to either `Rejected` or
  `Created(chain, images)`. The images are whatever the driver returns, which may be
  more than requested. A rejection becomes `Failure(SwapchainCreationFailed)` where the
  source stops the process with `NE_CORE_ASSERT`.

Some behaviour of the code differs from what a reader may expect. The model follows the code:

- `ChooseSwapPresentMode` returns the first MAILBOX *or* IMMEDIATE entry in enumeration
  order. MAILBOX is not preferred over an IMMEDIATE listed before it
  (`SupportDetails.FirstLowLatencyModeWins`).
- In `createBy`, a configured width and height (both non-zero) are clamped into
  `[minImageExtent, maxImageExtent]`. `currentExtent` is ignored in that case, even when
  it is not the sentinel (`SwapChain.ConfiguredExtentIgnoresCurrentExtent`).
- `createBy` asks for `max(ci.minImageCount, caps.minImageCount)` images, with no `+ 1`.
  Only `create` adds one.
- `cleanup` destroys the views and the chain but does not clear the image handles. So
  after it the image count and the view count differ
  (`SwapChain.CleanupKeepsStaleImages`). The lifecycle invariant `SwapChain.Valid` is
  therefore "a live chain has one view per image; a null chain has no views".
- A present mode or format named in the configuration is used without checking it
  against the surface's lists (`SwapChain.ConfiguredModeNotCheckedAgainstSurface`).
  The colour space of `createBy` is SRGB_NONLINEAR in every case, even when the format
  falls back to a supported entry with another colour space.
- The constructor and `Set` mark a delegate bound whatever they store, an empty
  `std::function` included. Executing such a delegate throws rather than returning the
  unbound default (`Delegates.SetEmptyThrows`).
- `AddStatic` stores an empty `std::function` as given. A broadcast that reaches it
  throws, and the listeners after it are not called (`Delegates.EmptyListenerStopsBroadcast`).

## Model

| member | source | states |
|---|---|---|
| VkTypes.Clamp | Engine/Source/Platform/RHI/Vulkan/VulkanSwapChain.cpp:55-60 | `max(lo, min(hi, x))` lies in `[lo, hi]` when `lo <= hi`, returns `x` unchanged when it is already inside, and returns the nearer bound when it is outside; when `hi < lo` it returns `lo` |
| VkTypes.ClampExtent | Engine/Source/Platform/RHI/Vulkan/VulkanSwapChain.cpp:239-244 | each component of the clamped extent lies in its `[min, max]` range when that range is non-empty; an extent already inside is returned unchanged |
| SupportDetails.FindPreferredFormat | Engine/Source/Platform/RHI/Vulkan/VulkanSwapChain.cpp:18-25 | the scan finds an entry iff {B8G8R8A8_UNORM, SRGB_NONLINEAR} occurs anywhere in the list, and the entry found is exactly that pair |
| SupportDetails.ChooseSwapSurfaceFormat | Engine/Source/Platform/RHI/Vulkan/VulkanSwapChain.cpp:8-28 | a single UNDEFINED entry gives {B8G8R8A8_UNORM, SRGB_NONLINEAR}; otherwise that pair if it is listed (in any position), else `formats[0]`; the result is always listed, except in the UNDEFINED case; an empty list is outside the domain because the source indexes `formats[0]` |
| SupportDetails.ChooseSwapPresentMode | Engine/Source/Platform/RHI/Vulkan/VulkanSwapChain.cpp:30-43 | the result is MAILBOX, IMMEDIATE or FIFO; it is FIFO iff no MAILBOX or IMMEDIATE is listed; a non-FIFO result is listed at an index before which no MAILBOX or IMMEDIATE occurs |
| SupportDetails.FirstLowLatencyModeWins | Engine/Source/Platform/RHI/Vulkan/VulkanSwapChain.cpp:32-40 | whichever of MAILBOX and IMMEDIATE is enumerated first is the choice, so MAILBOX is not preferred over an earlier IMMEDIATE |
| SupportDetails.ImmediateListedFirstIsChosen | Engine/Source/Platform/RHI/Vulkan/VulkanSwapChain.cpp:30-43 | [IMMEDIATE, MAILBOX] gives IMMEDIATE, and [FIFO, MAILBOX] gives MAILBOX |
| SupportDetails.ChooseSwapExtent | Engine/Source/Platform/RHI/Vulkan/VulkanSwapChain.cpp:45-63 | a `currentExtent` whose width is not `UINT32_MAX` is returned exactly, whatever the window size; otherwise the window size is clamped per component, lies in `[minImageExtent, maxImageExtent]` when that range is non-empty, and is unchanged when it is already inside |
| SwapChain.ClampImageCount | Engine/Source/Platform/RHI/Vulkan/VulkanSwapChain.cpp:111-115 | a non-zero `maxImageCount` bounds the count; the wanted count is kept when the maximum is zero or not exceeded, and otherwise replaced by the maximum |
| SwapChain.CreateImageCount | Engine/Source/Platform/RHI/Vulkan/VulkanSwapChain.cpp:110-115 | `create` asks for `minImageCount + 1` images unless a non-zero maximum is lower; the count is at least 1, at most a non-zero maximum, and at least the minimum when the capability range is sane; when the minimum is at least a non-zero maximum, the count is that maximum; `minImageCount = UINT32_MAX` is excluded because the increment would wrap |
| SwapChain.CreateByImageCount | Engine/Source/Platform/RHI/Vulkan/VulkanSwapChain.cpp:253-258 | `createBy` asks for the larger of the configured and the surface minimum; the count is at most a non-zero maximum, and without clamping it is one of the two minima and at least both; when either minimum exceeds a non-zero maximum, the count is that maximum |
| SwapChain.Negotiate | Engine/Source/Platform/RHI/Vulkan/VulkanSwapChain.cpp:101-131 | the request `create` builds: the chosen format and colour space, the default present-mode choice for the surface's modes (MAILBOX, IMMEDIATE or FIFO, any non-FIFO mode being listed by the surface), the chosen extent, and the `create` image count |
| SwapChain.ConfiguredSurfaceFormat | Engine/Source/Platform/RHI/Vulkan/VulkanSwapChain.cpp:185-208 | the colour space is always SRGB_NONLINEAR; B8G8R8A8_UNORM and R8G8B8A8_UNORM map to their Vulkan formats; any other configured format takes the default choice's format, which is B8G8R8A8_UNORM when the surface leaves the format open or lists the preferred pair |
| SwapChain.ConfiguredPresentMode | Engine/Source/Platform/RHI/Vulkan/VulkanSwapChain.cpp:210-231 | V-Sync forces FIFO whatever mode is configured; otherwise Immediate, Mailbox and FIFO map one-to-one, and any other value defers to the default choice; the result is always MAILBOX, IMMEDIATE or FIFO |
| SwapChain.ConfiguredExtent | Engine/Source/Platform/RHI/Vulkan/VulkanSwapChain.cpp:233-248 | with width and height both non-zero, the configured size is clamped into `[minImageExtent, maxImageExtent]` and kept as is when already inside; otherwise the extent is the default extent choice |
| SwapChain.ConfiguredExtentIgnoresCurrentExtent | Engine/Source/Platform/RHI/Vulkan/VulkanSwapChain.cpp:233-245 | with a configured size, changing `currentExtent` does not change the extent, and each component lies in its non-empty supported range |
| SwapChain.ConfiguredModeNotCheckedAgainstSurface | Engine/Source/Platform/RHI/Vulkan/VulkanSwapChain.cpp:216-226 | a configured MAILBOX is requested even when the surface lists only FIFO |
| SwapChain.NegotiateBy | Engine/Source/Platform/RHI/Vulkan/VulkanSwapChain.cpp:182-274 | the request `createBy` builds: colour space SRGB_NONLINEAR, the configured format, the configured present mode (FIFO under V-Sync, always among MAILBOX, IMMEDIATE and FIFO), the configured extent and the `createBy` image count; the format list may be empty when a named format is configured |
| SwapChain.CreateImageViews | Engine/Source/Platform/RHI/Vulkan/VulkanSwapChain.cpp:168-176 | there are as many views as images, and view `i` is built from image `i` with the chain's format |
| SwapChain.Build | Engine/Source/Platform/RHI/Vulkan/VulkanSwapChain.cpp:137-146 | creation fails iff the driver rejects the request; on success the chain handle and images are the driver's, the format, colour space and extent are the request's, and every image has its view |
| SwapChain.Create | Engine/Source/Platform/RHI/Vulkan/VulkanSwapChain.cpp:99-147 | `create` fails iff the driver rejects the negotiated request; on success the chain is live and valid, the images are the driver's (not necessarily the requested count), and the format, colour space and extent are the default choices |
| SwapChain.CreateBy | Engine/Source/Platform/RHI/Vulkan/VulkanSwapChain.cpp:180-289 | `createBy` fails iff the driver rejects the configured request; on success the chain is live and valid, the images are the driver's, the format is the configured one, the colour space is SRGB_NONLINEAR and the extent is the configured one |
| SwapChain.DestroyViews | Engine/Source/Platform/RHI/Vulkan/VulkanSwapChain.cpp:151-153 | each view is destroyed exactly once, in list order |
| SwapChain.Cleanup | Engine/Source/Platform/RHI/Vulkan/VulkanSwapChain.cpp:149-160 | afterwards there are no views and the handle is null; images, format, colour space and extent are unchanged; all views are destroyed in order, and then the chain, if there was one |
| SwapChain.Recreate | Engine/Source/Platform/RHI/Vulkan/VulkanSwapChain.cpp:162-166 | destroys exactly what `cleanup` destroys; the new chain is the one a first `create` on an uninitialised swap chain would give, so nothing of the old chain carries over |
| SwapChain.CreateIsStateless | Engine/Source/Platform/RHI/Vulkan/VulkanSwapChain.cpp:106-146 | `create` overwrites every field it owns, so, for a driver that answers from the request alone, its result does not depend on the state it is called on |
| SwapChain.CleanupIdempotent | Engine/Source/Platform/RHI/Vulkan/VulkanSwapChain.cpp:149-160 | a second `cleanup` destroys nothing and leaves the state as the first left it |
| SwapChain.CleanupKeepsStaleImages | Engine/Source/Platform/RHI/Vulkan/VulkanSwapChain.cpp:149-160 | after `cleanup` of a live chain with images, the image count and the view count differ |
| SwapChain.LifecyclePreservesValid | Engine/Source/Platform/RHI/Vulkan/VulkanSwapChain.cpp:146-176 | the uninitialised state is valid, and `cleanup` and every successful `create`/`createBy` leave a valid state |
| SwapChain.NeutralConfigurationMatchesCreate | Engine/Source/Platform/RHI/Vulkan/VulkanSwapChain.cpp:180-258 | a configuration with no named format or mode, no V-Sync, no size and `minImageCount + 1` images gives the request `create` builds, except that the colour space is SRGB_NONLINEAR |
| SwapChain.ExampleNegotiation | Engine/Source/Platform/RHI/Vulkan/VulkanSwapChain.cpp:99-115 | min 2 / max 4 images, the sentinel current extent and an 800x600 window inside [1, 4096] give 3 images at 800x600; {FIFO, MAILBOX} gives MAILBOX |
| Delegates.NewDelegate | Engine/Source/Core/Delegate.h:17 | a default-constructed delegate is unbound and holds no function |
| Delegates.DelegateOf | Engine/Source/Core/Delegate.h:18 | constructing with a function binds exactly that function, even an empty one |
| Delegates.Set | Engine/Source/Core/Delegate.h:20-28 | `Set`/`set` leave the delegate bound to the new function, whatever it held and even if the new function is empty |
| Delegates.ExecuteIfBound | Engine/Source/Core/Delegate.h:36-48 | a bound delegate holding a function returns its result for the arguments and calls it exactly once; a bound delegate holding an empty function throws `std::bad_function_call`; an unbound one calls nothing and returns the value-initialised `ReturnType{}` |
| Delegates.ExecuteIfBoundBool | Engine/Source/Core/Delegate.h:44-46 | for `bool`, an unbound delegate calls nothing and returns `true`; a bound one calls its function once, or throws when it is empty |
| Delegates.ExecuteIfBoundVoid | Engine/Source/Core/Delegate.h:41-43 | for `void`, the execution throws iff the delegate is bound to an empty function; otherwise the function is called once with the arguments iff the delegate is bound, and never otherwise |
| Delegates.ConstructionKeepsUnboundEmpty | Engine/Source/Core/Delegate.h:17-28 | the constructors and `Set` never produce an unbound delegate that holds a function |
| Delegates.SetReplacesFunction | Engine/Source/Core/Delegate.h:20-24 | after `Set(f)`, execution is `f` applied once to the arguments, whatever was stored before; the last of two `Set`s wins |
| Delegates.SetEmptyThrows | Engine/Source/Core/Delegate.h:18-24 | after `Set` with an empty function, execution throws, whereas a default-constructed delegate does not |
| Delegates.NewDelegateCallsNothing | Engine/Source/Core/Delegate.h:41-47 | executing a default-constructed delegate calls nothing and returns `ReturnType{}`, or `true` for `bool` |
| Delegates.NewMulticast | Engine/Source/Core/Delegate.h:61 | a new multicast delegate has no listeners |
| Delegates.Add | Engine/Source/Core/Delegate.h:63-72 | registration appends exactly one listener at the end and leaves the earlier listeners and their order unchanged |
| Delegates.AddStatic | Engine/Source/Core/Delegate.h:63 | `AddStatic` appends the given function after the existing listeners, even when it is empty |
| Delegates.AddObject | Engine/Source/Core/Delegate.h:66-72 | `AddObject` appends one listener calling `obj->*member` after the existing listeners; that listener never throws `std::bad_function_call` |
| Delegates.MovedTimesIdentity | Engine/Source/Core/Delegate.h:86-91 | arguments that moving leaves unchanged are unchanged after any number of forwarding calls |
| Delegates.MovedTimesAdd | Engine/Source/Core/Delegate.h:88-89 | `k` forwarding calls followed by `j` more leave the arguments as `k + j` calls do |
| Delegates.BroadcastTo | Engine/Source/Core/Delegate.h:86-91 | call `i` is listener `i` with the arguments as the `i` earlier calls left them; the loop stops, throwing, at the first empty listener, and throws iff some listener is empty; with none it calls every listener |
| Delegates.Broadcast | Engine/Source/Core/Delegate.h:86-91 | listeners are invoked in registration order, once per registration, up to the first empty one, which throws and ends the broadcast; it throws iff some listener is empty and otherwise calls every listener; the first call receives the broadcast's arguments and call `i` receives them after `i` moves; all calls receive the same arguments when moving leaves them unchanged |
| Delegates.BroadcastSameArgs | Engine/Source/Core/Delegate.h:86-91 | the intended broadcast: call `i` is listener `i` with exactly the broadcast's arguments, and every recorded call is to a non-empty listener; it throws iff some listener is empty, and then stops at the first empty one; otherwise it calls every listener |
| Delegates.BroadcastMovesStringArgument | Engine/Source/Core/Delegate.h:86-91 | with a `std::string` argument "frame" and two listeners, the first receives "frame" and the second the moved-from empty string |
| Delegates.EmptyListenerStopsBroadcast | Engine/Source/Core/Delegate.h:63-91 | after `AddStatic(nullptr)` and `AddStatic(f)`, a broadcast throws at the first listener and never calls `f` |
| Delegates.BroadcastAgreesOnUnmovedArgs | Engine/Source/Core/Delegate.h:86-91 | when moving leaves arguments unchanged, the code as written and the intended broadcast make the same calls and both throw or neither does |
| Delegates.BroadcastSplits | Engine/Source/Core/Delegate.h:86-91 | broadcasting to two batches of listeners is broadcasting to the first batch and then, unless it threw, to the second with what the first batch left of the arguments |
| Delegates.BroadcastAfterAdd | Engine/Source/Core/Delegate.h:63-91 | after one more registration, a broadcast makes the same calls as before; unless those threw, it then calls the new listener once with the arguments as all earlier calls left them, or throws when the new listener is empty |
| Delegates.BroadcastSameArgsAfterAdd | Engine/Source/Core/Delegate.h:63-91 | for the intended broadcast, one more registration adds, unless the earlier calls threw, exactly one call of the new listener with the broadcast's arguments, or a throw when it is empty |

## Left out

- `VulkanSwapChainSupportDetails::query`, `vkCreateSwapchainKHR`, `vkGetSwapchainImagesKHR`, `VulkanUtils::createImageView` and `vkDestroy*` are driver calls. Their results are inputs here: the snapshot, the driver function, and views identified by their image and format.
- `acquireNextImage` and `presentImage` pass their arguments straight to the driver and contain no logic of their own.
- `initialize` only stores device, surface and window-provider handles. Those become parameters of each operation.
- `NE_CORE_ASSERT` terminating the process is modelled as a `Failure` result.
- The pass-through request fields are not modelled: `imageArrayLayers`, `imageUsage`, `clipped`, `preTransform`, `compositeAlpha`, the sharing mode and `oldSwapchain`.
- SwapChain.CreateIsStateless: the driver is a function of the request alone. In the source, `create` on a live chain passes a null `oldSwapchain`, which the driver rejects because the window is in use, and it overwrites the old chain and views without destroying them. This case is outside the model: the lemma holds for every prior state only because the driver cannot see the old chain. `recreate` calls `create` only after `cleanup` (`SwapChain.Recreate`).
- The `int` to `uint32_t` cast of the window size is not modelled. The window size is taken as a non-negative `Extent2D`.
- SwapChain.CreateImageCount: requires `minImageCount < UINT32_MAX`, because `minImageCount + 1` would wrap to 0 in the source.
- The member initialisers of `VulkanSwapChain` are declared in a header that is not part of this model. `SwapChain.Uninitialized` assumes a null handle, no images or views, UNDEFINED format, SRGB_NONLINEAR and a 0x0 extent.
- The engine's `EFormat`, `EColorSpace` and `EPresentMode` declarations are not part of this model. Only the enumerators that the `switch` statements of `createBy` name are distinguished; every other enumerator is an `…Other(tag)` value.
- `MulticastDelegate::AddWeak` is not modelled: its behaviour depends on `std::weak_ptr` lifetime and on a weak pointer built from a raw pointer.
- `Delegate::operator()` is not modelled separately. It calls the stored `std::function` without checking `bBound`, so on a bound delegate it is the bound case of `ExecuteIfBound`. On an unbound delegate it calls the empty function and throws.
- What moving from a value leaves behind is a parameter (`moved`) of `Broadcast`. The model does not derive it from the argument types.
- Delegates.ExecuteIfBound: C++ picks the unbound return value by `ReturnType`. Here there are three members (`ExecuteIfBoundVoid`, `ExecuteIfBoundBool`, and the general one). The general one receives the value-initialised `ReturnType{}` as an argument.
- `VulkanRenderPass.h` declares `create`, `recreate`, `cleanup` and `findSupportedImageFormat` without bodies, so the render-pass manager and its framebuffers are not part of this model.
- `Base.h` contains only platform and export macros.

## Findings

| source | as written | input that shows it | evidently intended | confidence | as-written member | corrected member |
|---|---|---|---|---|---|---|
| Engine/Source/Core/Delegate.h:86-91 | `Broadcast` takes its arguments by value and calls `func(std::forward<Args>(args)...)` inside the loop over listeners, so each call may move from the same arguments | a `MulticastDelegate<std::string>` with two `AddStatic` listeners and `Broadcast("frame")`: the second listener receives a moved-from (empty) string | every listener receives the broadcast's arguments | not executed | Delegates.Broadcast (exhibited by Delegates.BroadcastMovesStringArgument) | Delegates.BroadcastSameArgs |

=== FILE: delegate.dfy ===
/**
 `Delegate<R(Args...)>` and `MulticastDelegate<Args...>`.

 A stored `std::function` is a Dafny function value; the argument pack is one
 value of type `A`. Calling a function is observable only through its result
 and through the record of the calls made, so executions return both.
 */
module Delegates {

  // ---------------------------------------------------------------------------
  // Single-cast delegate
  // ---------------------------------------------------------------------------

  /** What a `std::function` holds: a callable target, or nothing (an empty
      `std::function`, such as one built from `nullptr`). */
  datatype Target<!A, R> = Empty | Callable(call: A -> R)

  /** `m_Function` and `bBound`. The constructor and `Set` raise `bBound`
      whatever they store, so a bound delegate may hold an empty function;
      nothing lowers it again. */
  datatype Delegate<!A, R> = Delegate(stored: Target<A, R>, bound: bool)

  /** What an execution does: it returns a result after the listed calls of
      the stored target, or it calls an empty `std::function`, which throws
      `std::bad_function_call`. */
  datatype Execution<A, R> = Returned(result: R, calls: seq<A>) | BadFunctionCall

  /** `Delegate()`: the default constructor. */
  function NewDelegate<A, R>(): (d: Delegate<A, R>)
    ensures !d.bound && d.stored.Empty?
  {
    Delegate(Empty, false)
  }

  /** `Delegate(function)`: bound, holding `f`. */
  function DelegateOf<A, R>(f: Target<A, R>): (d: Delegate<A, R>)
    ensures d.bound && d.stored == f
  {
    Delegate(f, true)
  }

  /** `Set` (and `set`, which forwards to it): bound, holding `f` in place of
      whatever was stored before. */
  function Set<A, R>(d: Delegate<A, R>, f: Target<A, R>): (r: Delegate<A, R>)
    ensures r.bound && r.stored == f
  {
    Delegate(f, true)
  }

  /** An unbound delegate holds no function. The default constructor
      establishes this and `Set` keeps it, since it leaves the delegate bound. */
  predicate UnboundHoldsNothing<A, R>(d: Delegate<A, R>)
  {
    !d.bound ==> d.stored.Empty?
  }

  /** `ExecuteIfBound` for a `ReturnType` other than `void` and `bool`:
      `valueInit` is the value-initialised `ReturnType{}` the unbound case
      returns. */
  function ExecuteIfBound<A, R>(d: Delegate<A, R>, args: A, valueInit: R): (e: Execution<A, R>)
    ensures !d.bound ==> e == Returned(valueInit, [])
    ensures d.bound && d.stored.Callable? ==> e == Returned(d.stored.call(args), [args])
    ensures d.bound && d.stored.Empty? ==> e.BadFunctionCall?
    ensures e.Returned? && |e.calls| > 0 ==> d.bound
  {
    if d.bound then
      match d.stored
      case Callable(f) => Returned(f(args), [args])
      case Empty => BadFunctionCall
    else Returned(valueInit, [])
  }

  /** `ExecuteIfBound` for `ReturnType == bool`: an unbound delegate answers
      `true`. */
  function ExecuteIfBoundBool<A>(d: Delegate<A, bool>, args: A): (e: Execution<A, bool>)
    ensures !d.bound ==> e.Returned? && e.result && e.calls == []
    ensures d.bound && d.stored.Callable? ==> e == Returned(d.stored.call(args), [args])
    ensures d.bound && d.stored.Empty? ==> e.BadFunctionCall?
  {
    ExecuteIfBound(d, args, true)
  }

  /** `ExecuteIfBound` for `ReturnType == void`: only the calls are observable. */
  function ExecuteIfBoundVoid<A>(d: Delegate<A, ()>, args: A): (e: Execution<A, ()>)
    ensures e.Returned? ==> (e.calls == [args] <==> d.bound)
    ensures e.Returned? ==> (e.calls == [] <==> !d.bound)
    ensures e.BadFunctionCall? <==> d.bound && d.stored.Empty?
  {
    ExecuteIfBound(d, args, ())
  }

  /** The constructors and `Set` never leave an unbound delegate holding a
      function. */
  lemma ConstructionKeepsUnboundEmpty<A, R>(d: Delegate<A, R>, f: Target<A, R>)
    ensures UnboundHoldsNothing(NewDelegate<A, R>())
    ensures UnboundHoldsNothing(DelegateOf(f))
    ensures UnboundHoldsNothing(Set(d, f))
  {
  }

  /** The last `Set` wins: executing after `Set(f)` is executing `f`, whatever
      the delegate held before. */
  lemma SetReplacesFunction<A, R>(d: Delegate<A, R>, f: A -> R, g: Target<A, R>, args: A, valueInit: R)
    ensures ExecuteIfBound(Set(d, Callable(f)), args, valueInit) == Returned(f(args), [args])
    ensures ExecuteIfBound(Set(Set(d, g), Callable(f)), args, valueInit)
         == ExecuteIfBound(DelegateOf(Callable(f)), args, valueInit)
  {
  }

  /** Binding an empty function still makes the delegate bound, so executing
      it throws instead of returning the unbound default. */
  lemma SetEmptyThrows<A, R>(d: Delegate<A, R>, args: A, valueInit: R)
    ensures ExecuteIfBound(Set(d, Empty), args, valueInit) == BadFunctionCall
    ensures ExecuteIfBound(NewDelegate<A, R>(), args, valueInit) != BadFunctionCall
  {
  }

  /** A default-constructed delegate calls nothing and returns the default. */
  lemma NewDelegateCallsNothing<A, R>(args: A, valueInit: R)
    ensures ExecuteIfBound(NewDelegate<A, R>(), args, valueInit) == Returned(valueInit, [])
    ensures ExecuteIfBoundBool(NewDelegate<A, bool>(), args) == Returned(true, [])
  {
  }

  // ---------------------------------------------------------------------------
  // Multicast delegate
  // ---------------------------------------------------------------------------

  /** An object pointer and a member-function pointer, as `AddObject` binds them. */
  type ObjectRef = nat
  type MemberRef = nat

  /** A registered `std::function<void(Args...)>`: either the one given to
      `AddStatic`, which may be empty, or the lambda `AddObject` builds around
      `obj->*member`, which never is. */
  datatype Listener<!A> = StaticListener(fn: Target<A, ()>) | ObjectListener(obj: ObjectRef, member: MemberRef)

  /** Calling the listener does not throw `std::bad_function_call`. */
  predicate Invocable<A>(l: Listener<A>)
  {
    !(l.StaticListener? && l.fn.Empty?)
  }

  /** One call of one listener with the arguments it received. */
  datatype Invocation<!A> = Invocation(listener: Listener<A>, args: A)

  /** What a broadcast does: the calls made, in order, and whether it ended by
      calling an empty listener, which throws out of the loop. */
  datatype BroadcastRecord<!A> = BroadcastRecord(calls: seq<Invocation<A>>, threw: bool)

  /** `MulticastDelegate`: the listeners in registration order. */
  datatype MulticastDelegate<!A> = MulticastDelegate(listeners: seq<Listener<A>>)

  /** `MulticastDelegate()`: no listeners. */
  function NewMulticast<A>(): (m: MulticastDelegate<A>)
    ensures |m.listeners| == 0
  {
    MulticastDelegate([])
  }

  /** Appends one listener and leaves the earlier ones, and their order, alone. */
  function Add<A>(m: MulticastDelegate<A>, l: Listener<A>): (r: MulticastDelegate<A>)
    ensures |r.listeners| == |m.listeners| + 1
    ensures r.listeners[..|m.listeners|] == m.listeners
    ensures r.listeners[|m.listeners|] == l
  {
    MulticastDelegate(m.listeners + [l])
  }

  /** `AddStatic`: the function is stored as given, even when it is empty. */
  function AddStatic<A>(m: MulticastDelegate<A>, f: Target<A, ()>): (r: MulticastDelegate<A>)
    ensures |r.listeners| == |m.listeners| + 1
    ensures r.listeners[..|m.listeners|] == m.listeners
    ensures r.listeners[|m.listeners|] == StaticListener(f)
  {
    Add(m, StaticListener(f))
  }

  /** `AddObject` */
  function AddObject<A>(m: MulticastDelegate<A>, obj: ObjectRef, member: MemberRef): (r: MulticastDelegate<A>)
    ensures |r.listeners| == |m.listeners| + 1
    ensures r.listeners[..|m.listeners|] == m.listeners
    ensures r.listeners[|m.listeners|] == ObjectListener(obj, member)
    ensures Invocable(r.listeners[|m.listeners|])
  {
    Add(m, ObjectListener(obj, member))
  }

  /** The argument pack as it stands before call `k` of a broadcast. `Broadcast`
      takes its arguments by value and forwards them inside its loop, so each
      call of a `std::function` (whose parameters are by value) may move from
      them; `moved` says what a value becomes once moved from. It is the
      identity for lvalue-reference and trivially copyable arguments, and maps
      a `std::string` to the empty string in practice. */
  function MovedTimes<A>(moved: A -> A, args: A, k: nat): A
    decreases k
  {
    if k == 0 then args else MovedTimes(moved, moved(args), k - 1)
  }

  /** Moving from values that moving leaves unchanged changes nothing. */
  lemma {:induction false} MovedTimesIdentity<A>(moved: A -> A, args: A, k: nat)
    requires forall x :: moved(x) == x
    ensures MovedTimes(moved, args, k) == args
    decreases k
  {
    if k > 0 {
      MovedTimesIdentity(moved, moved(args), k - 1);
    }
  }

  /** Every count of moves leaves such arguments as they were. */
  lemma MovedTimesIdentityAll<A>(moved: A -> A, args: A)
    ensures (forall x :: moved(x) == x) ==> forall k: nat :: MovedTimes(moved, args, k) == args
  {
    if forall x :: moved(x) == x {
      forall k: nat ensures MovedTimes(moved, args, k) == args {
        MovedTimesIdentity(moved, args, k);
      }
    }
  }

  /** A broadcast record that ends by throwing stays as it is; otherwise the
      calls of `next` follow, and `next` decides whether it throws. */
  function Then<A>(done: BroadcastRecord<A>, next: BroadcastRecord<A>): BroadcastRecord<A>
  {
    if done.threw then done else BroadcastRecord(done.calls + next.calls, next.threw)
  }

  /** The loop of `Broadcast` over a list of listeners, as written: call `i`
      is listener `i` with the arguments as left by the `i` calls before it;
      the loop stops at the first empty listener, by throwing, and runs to the
      end otherwise. */
  function BroadcastTo<A>(listeners: seq<Listener<A>>, args: A, moved: A -> A): (r: BroadcastRecord<A>)
    ensures |r.calls| <= |listeners|
    ensures forall i :: 0 <= i < |r.calls| ==> r.calls[i] == Invocation(listeners[i], MovedTimes(moved, args, i))
    ensures forall i :: 0 <= i < |r.calls| ==> Invocable(listeners[i])
    ensures r.threw <==> exists i :: 0 <= i < |listeners| && !Invocable(listeners[i])
    ensures r.threw ==> |r.calls| < |listeners| && !Invocable(listeners[|r.calls|])
    ensures !r.threw ==> |r.calls| == |listeners|
  {
    if |listeners| == 0 then BroadcastRecord([], false)
    else if !Invocable(listeners[0]) then BroadcastRecord([], true)
    else
      var rest := BroadcastTo(listeners[1..], moved(args), moved);
      var r := BroadcastRecord([Invocation(listeners[0], args)] + rest.calls, rest.threw);
      assert forall i :: 1 <= i < |listeners| ==> listeners[i] == listeners[1..][i - 1];
      assert rest.threw ==> !Invocable(listeners[|r.calls|]);
      r
  }

  /** `Broadcast`, as written: listeners are invoked once per registration, in
      registration order, up to the first empty one, which throws and ends
      the broadcast; with no empty listener every listener is invoked. The
      first call receives the broadcast's arguments, later ones what the
      earlier calls left of them, which is the same arguments exactly when
      moving leaves them unchanged. */
  function Broadcast<A(!new)>(m: MulticastDelegate<A>, args: A, moved: A -> A): (r: BroadcastRecord<A>)
    ensures |r.calls| <= |m.listeners|
    ensures forall i :: 0 <= i < |r.calls| ==> r.calls[i].listener == m.listeners[i]
    ensures |r.calls| > 0 ==> r.calls[0].args == args
    ensures forall i :: 0 <= i < |r.calls| ==> r.calls[i].args == MovedTimes(moved, args, i)
    ensures (forall x :: moved(x) == x) ==> forall i :: 0 <= i < |r.calls| ==> r.calls[i].args == args
    ensures r.threw <==> exists i :: 0 <= i < |m.listeners| && !Invocable(m.listeners[i])
    ensures r.threw ==> |r.calls| < |m.listeners| && !Invocable(m.listeners[|r.calls|])
    ensures forall i :: 0 <= i < |r.calls| ==> Invocable(m.listeners[i])
    ensures !r.threw ==> |r.calls| == |m.listeners|
  {
    MovedTimesIdentityAll(moved, args);
    BroadcastTo(m.listeners, args, moved)
  }

  /** `Broadcast` as evidently intended: every listener invoked receives the
      same arguments (forwarding them as lvalues, `func(args...)`). */
  function BroadcastSameArgs<A(!new)>(m: MulticastDelegate<A>, args: A): (r: BroadcastRecord<A>)
    ensures |r.calls| <= |m.listeners|
    ensures forall i :: 0 <= i < |r.calls| ==> r.calls[i] == Invocation(m.listeners[i], args)
    ensures forall i :: 0 <= i < |r.calls| ==> Invocable(m.listeners[i])
    ensures r.threw <==> exists i :: 0 <= i < |m.listeners| && !Invocable(m.listeners[i])
    ensures r.threw ==> |r.calls| < |m.listeners| && !Invocable(m.listeners[|r.calls|])
    ensures !r.threw ==> |r.calls| == |m.listeners|
  {
    Broadcast(m, args, x => x)
  }

  /** With a `std::string` argument and two listeners, the second listener
      receives the moved-from (empty) string instead of the broadcast one. */
  lemma BroadcastMovesStringArgument(f: string -> (), g: string -> ())
    ensures var r := Broadcast(MulticastDelegate([StaticListener(Callable(f)), StaticListener(Callable(g))]),
                               "frame", (s: string) => "");
            |r.calls| == 2 && r.calls[0].args == "frame" && r.calls[1].args == "" && !r.threw
  {
  }

  /** An empty listener registered first throws before any listener is
      called, so the broadcast calls nothing. */
  lemma EmptyListenerStopsBroadcast<A(!new)>(f: A -> (), args: A, moved: A -> A)
    ensures Broadcast(AddStatic(AddStatic(NewMulticast(), Empty), Callable(f)), args, moved)
         == BroadcastRecord([], true)
  {
  }

  /** The code as written and the intended broadcast agree exactly on
      arguments that moving leaves unchanged. */
  lemma BroadcastAgreesOnUnmovedArgs<A(!new)>(m: MulticastDelegate<A>, args: A, moved: A -> A)
    requires forall x :: moved(x) == x
    ensures Broadcast(m, args, moved) == BroadcastSameArgs(m, args)
  {
  }

  /** Moves compose: `j` moves after `k` moves are `k + j` moves. */
  lemma {:induction false} MovedTimesAdd<A>(moved: A -> A, args: A, k: nat, j: nat)
    ensures MovedTimes(moved, args, k + j) == MovedTimes(moved, MovedTimes(moved, args, k), j)
    decreases k
  {
    if k > 0 {
      MovedTimesAdd(moved, moved(args), k - 1, j);
    }
  }

  /** One unfolding of `BroadcastTo` at an invocable first listener. */
  lemma BroadcastToStep<A>(listeners: seq<Listener<A>>, args: A, moved: A -> A)
    requires |listeners| > 0 && Invocable(listeners[0])
    ensures BroadcastTo(listeners, args, moved)
         == Then(BroadcastRecord([Invocation(listeners[0], args)], false), BroadcastTo(listeners[1..], moved(args), moved))
  {
  }

  /** `Then` is associative. */
  lemma ThenAssociative<A>(a: BroadcastRecord<A>, b: BroadcastRecord<A>, c: BroadcastRecord<A>)
    ensures Then(Then(a, b), c) == Then(a, Then(b, c))
  {
  }

  /** Broadcasting to listeners registered in two batches is broadcasting to
      the first batch and then, unless it threw, to the second with what the
      first left of the arguments. */
  lemma {:induction false} BroadcastSplits<A>(first: seq<Listener<A>>, second: seq<Listener<A>>, args: A, moved: A -> A)
    ensures BroadcastTo(first + second, args, moved)
         == Then(BroadcastTo(first, args, moved), BroadcastTo(second, MovedTimes(moved, args, |first|), moved))
    decreases |first|
  {
    var next := BroadcastTo(second, MovedTimes(moved, args, |first|), moved);
    if |first| == 0 {
      assert first + second == second;
      assert BroadcastTo(first, args, moved).calls + next.calls == next.calls;
    } else if Invocable(first[0]) {
      var tail := first[1..];
      var call := BroadcastRecord([Invocation(first[0], args)], false);
      assert (first + second)[0] == first[0];
      assert (first + second)[1..] == tail + second;
      BroadcastToStep(first + second, args, moved);
      BroadcastToStep(first, args, moved);
      BroadcastSplits(tail, second, moved(args), moved);
      ThenAssociative(call, BroadcastTo(tail, moved(args), moved), next);
    } else {
      assert (first + second)[0] == first[0];
    }
  }

  /** Broadcasting after a registration makes the earlier calls unchanged; if
      none of them threw, the new listener is invoked once more with the
      arguments as all earlier calls left them, or throws when it is empty. */
  lemma BroadcastAfterAdd<A(!new)>(m: MulticastDelegate<A>, l: Listener<A>, args: A, moved: A -> A)
    ensures Broadcast(Add(m, l), args, moved)
         == Then(Broadcast(m, args, moved),
                 if Invocable(l) then BroadcastRecord([Invocation(l, MovedTimes(moved, args, |m.listeners|))], false)
                 else BroadcastRecord([], true))
  {
  }

  /** The same, for the intended broadcast: the new listener receives the
      same arguments as all the others. */
  lemma BroadcastSameArgsAfterAdd<A(!new)>(m: MulticastDelegate<A>, l: Listener<A>, args: A)
    ensures BroadcastSameArgs(Add(m, l), args)
         == Then(BroadcastSameArgs(m, args),
                 if Invocable(l) then BroadcastRecord([Invocation(l, args)], false) else BroadcastRecord([], true))
  {
  }
}

=== FILE: support_details.dfy ===
/**
 `VulkanSwapChainSupportDetails`: the capability snapshot of a surface and
 the three selection rules the swap chain applies to it when no
 configuration overrides them (surface format, present mode, extent).
 */
module SupportDetails {
  import opened VkTypes

  /** The snapshot `query` returns: capabilities plus the supported formats and
      present modes in the driver's enumeration order. */
  datatype SupportDetails = SupportDetails(
    capabilities: SurfaceCapabilities,
    formats: seq<SurfaceFormat>,
    presentModes: seq<PresentMode>)

  /** The pair the engine prefers, and also its answer to a surface that
      leaves the format open. */
  const PreferredSurfaceFormat: SurfaceFormat := SurfaceFormat(B8G8R8A8Unorm, SrgbNonlinear)

  /** The surface accepts any format: it reports exactly one entry, whose
      format is UNDEFINED. */
  predicate LeavesFormatOpen(formats: seq<SurfaceFormat>)
  {
    |formats| == 1 && formats[0].format == Undefined
  }

  datatype Option<T> = None | Some(value: T)

  /** The entry the scan over the supported formats stops at, if any. */
  function FindPreferredFormat(formats: seq<SurfaceFormat>): (r: Option<SurfaceFormat>)
    ensures r.Some? <==> PreferredSurfaceFormat in formats
    ensures r.Some? ==> r.value == PreferredSurfaceFormat
  {
    if |formats| == 0 then None
    else if formats[0].format == B8G8R8A8Unorm && formats[0].colorSpace == SrgbNonlinear then Some(formats[0])
    else FindPreferredFormat(formats[1..])
  }

  /** `ChooseSwapSurfaceFormat`. The source indexes `formats[0]`, so an empty
      list is outside its domain. */
  function ChooseSwapSurfaceFormat(formats: seq<SurfaceFormat>): (r: SurfaceFormat)
    requires |formats| > 0
    ensures LeavesFormatOpen(formats) ==> r == PreferredSurfaceFormat
    ensures !LeavesFormatOpen(formats) && PreferredSurfaceFormat in formats ==> r == PreferredSurfaceFormat
    ensures !LeavesFormatOpen(formats) && PreferredSurfaceFormat !in formats ==> r == formats[0]
    ensures r in formats || LeavesFormatOpen(formats)
  {
    if |formats| == 1 && formats[0].format == Undefined then PreferredSurfaceFormat
    else match FindPreferredFormat(formats)
      case Some(f) => f
      case None => formats[0]
  }

  /** The modes the selection stops at. */
  predicate LowLatency(m: PresentMode)
  {
    m == Mailbox || m == Immediate
  }

  /** `ChooseSwapPresentMode`: the first MAILBOX or IMMEDIATE entry in
      enumeration order, else FIFO, the one mode every surface supports. */
  function ChooseSwapPresentMode(modes: seq<PresentMode>): (r: PresentMode)
    ensures r == Mailbox || r == Immediate || r == Fifo
    ensures r == Fifo <==> forall i :: 0 <= i < |modes| ==> !LowLatency(modes[i])
    ensures r != Fifo ==> exists k :: 0 <= k < |modes| && modes[k] == r &&
                                      forall j :: 0 <= j < k ==> !LowLatency(modes[j])
  {
    if |modes| == 0 then Fifo
    else if modes[0] == Mailbox then modes[0]
    else if modes[0] == Immediate then modes[0]
    else
      var r := ChooseSwapPresentMode(modes[1..]);
      assert forall i :: 1 <= i < |modes| ==> modes[i] == modes[1..][i - 1];
      if r != Fifo then
        var k :| 0 <= k < |modes[1..]| && modes[1..][k] == r &&
                 forall j :: 0 <= j < k ==> !LowLatency(modes[1..][j]);
        assert modes[k + 1] == r;
        assert forall j :: 0 <= j < k + 1 ==> !LowLatency(modes[j]) by {
          forall j | 0 <= j < k + 1 ensures !LowLatency(modes[j]) {
            if j > 0 { assert modes[j] == modes[1..][j - 1]; }
          }
        }
        r
      else r
  }

  /** Both components of `e` lie in the capability's `[minImageExtent, maxImageExtent]`. */
  predicate WithinExtentRange(caps: SurfaceCapabilities, e: Extent2D)
  {
    && caps.minImageExtent.width <= e.width <= caps.maxImageExtent.width
    && caps.minImageExtent.height <= e.height <= caps.maxImageExtent.height
  }

  /** `ChooseSwapExtent`, with the window provider's answer as `window`. A
      current extent whose width is not the sentinel is taken as is; otherwise
      the window size is clamped into the supported range. */
  function ChooseSwapExtent(caps: SurfaceCapabilities, window: Extent2D): (r: Extent2D)
    ensures caps.currentExtent.width != UINT32_MAX ==> r == caps.currentExtent
    ensures caps.currentExtent.width == UINT32_MAX ==>
              r == ClampExtent(caps.minImageExtent, caps.maxImageExtent, window)
    ensures caps.currentExtent.width == UINT32_MAX && caps.minImageExtent.width <= caps.maxImageExtent.width ==>
              caps.minImageExtent.width <= r.width <= caps.maxImageExtent.width
    ensures caps.currentExtent.width == UINT32_MAX && caps.minImageExtent.height <= caps.maxImageExtent.height ==>
              caps.minImageExtent.height <= r.height <= caps.maxImageExtent.height
    ensures caps.currentExtent.width == UINT32_MAX && WithinExtentRange(caps, window) ==> r == window
  {
    if caps.currentExtent.width != UINT32_MAX then caps.currentExtent
    else ClampExtent(caps.minImageExtent, caps.maxImageExtent, window)
  }

  /** Whichever of MAILBOX and IMMEDIATE is enumerated first is chosen:
      MAILBOX is not preferred over an earlier IMMEDIATE. */
  lemma FirstLowLatencyModeWins(modes: seq<PresentMode>, k: nat)
    requires k < |modes| && LowLatency(modes[k])
    requires forall j :: 0 <= j < k ==> !LowLatency(modes[j])
    ensures ChooseSwapPresentMode(modes) == modes[k]
  {
  }

  /** Immediate listed before Mailbox wins although Mailbox is supported. */
  lemma ImmediateListedFirstIsChosen()
    ensures ChooseSwapPresentMode([Immediate, Mailbox]) == Immediate
    ensures ChooseSwapPresentMode([Fifo, Mailbox]) == Mailbox
  {
  }
}

=== FILE: swap_chain.dfy ===
/**
 `VulkanSwapChain`: negotiation of the swap-chain request (`create` and the
 configuration-driven `createBy`) and the lifecycle of the chain and its
 image views (`createImageViews`, `cleanup`, `recreate`).

 The driver is a parameter: given the negotiated request it either rejects
 it or returns a chain handle together with the images it allocated, which
 may be more than the requested minimum.
 */
module SwapChain {
  import opened VkTypes
  import opened SupportDetails

  // ---------------------------------------------------------------------------
  // Configuration (`SwapchainCreateInfo`). The engine's own enumerations are
  // only distinguished as far as the `switch` statements of `createBy` do.
  // ---------------------------------------------------------------------------

  /** `EFormat` */
  datatype EFormat = EFormatB8G8R8A8Unorm | EFormatR8G8B8A8Unorm | EFormatOther(formatTag: nat)

  /** `EColorSpace` */
  datatype EColorSpace = EColorSpaceSrgbNonlinear | EColorSpaceOther(colorSpaceTag: nat)

  /** `EPresentMode` */
  datatype EPresentMode = EPresentImmediate | EPresentMailbox | EPresentFifo | EPresentOther(modeTag: nat)

  /** The fields of `SwapchainCreateInfo` that `createBy` negotiates with
      (`imageArrayLayers` and `bClipped` are copied verbatim and left out). */
  datatype SwapchainCreateInfo = SwapchainCreateInfo(
    imageFormat: EFormat,
    colorSpace: EColorSpace,
    presentMode: EPresentMode,
    bVsync: bool,
    width: Uint32,   // 0 means "use the surface / window size"
    height: Uint32,
    minImageCount: Uint32)

  /** The negotiated fields of `VkSwapchainCreateInfoKHR`. */
  datatype ChainRequest = ChainRequest(
    minImageCount: Uint32,
    imageFormat: Format,
    imageColorSpace: ColorSpace,
    imageExtent: Extent2D,
    presentMode: PresentMode)

  // ---------------------------------------------------------------------------
  // Image count
  // ---------------------------------------------------------------------------

  /** Lowers `wanted` to `maxImageCount` when that is non-zero and exceeded. */
  function ClampImageCount(caps: SurfaceCapabilities, wanted: Uint32): (n: Uint32)
    ensures caps.maxImageCount > 0 ==> n <= caps.maxImageCount
    ensures caps.maxImageCount == 0 || wanted <= caps.maxImageCount ==> n == wanted
    ensures caps.maxImageCount > 0 && wanted > caps.maxImageCount ==> n == caps.maxImageCount
  {
    if caps.maxImageCount > 0 && wanted > caps.maxImageCount then caps.maxImageCount else wanted
  }

  /** True when the capabilities' image-count range is non-empty (as the
      Vulkan specification guarantees of a real surface). */
  predicate ImageCountRangeSane(caps: SurfaceCapabilities)
  {
    caps.maxImageCount == 0 || caps.minImageCount <= caps.maxImageCount
  }

  /** The image count `create` requests: one more than the minimum, unless the
      maximum forbids it. The increment at `UINT32_MAX` would wrap and is
      excluded. */
  function CreateImageCount(caps: SurfaceCapabilities): (n: Uint32)
    requires caps.minImageCount < UINT32_MAX
    ensures n >= 1
    ensures caps.maxImageCount > 0 ==> n <= caps.maxImageCount
    ensures caps.maxImageCount == 0 || caps.minImageCount < caps.maxImageCount ==> n == caps.minImageCount + 1
    ensures ImageCountRangeSane(caps) ==> caps.minImageCount <= n
    ensures caps.maxImageCount > 0 && caps.minImageCount >= caps.maxImageCount ==> n == caps.maxImageCount
  {
    ClampImageCount(caps, caps.minImageCount + 1)
  }

  /** The image count `createBy` requests: the larger of the configured and
      the surface minimum, unless the maximum forbids it. */
  function CreateByImageCount(ci: SwapchainCreateInfo, caps: SurfaceCapabilities): (n: Uint32)
    ensures caps.maxImageCount > 0 ==> n <= caps.maxImageCount
    ensures ImageCountRangeSane(caps) ==> caps.minImageCount <= n
    ensures ImageCountRangeSane(caps) && (caps.maxImageCount == 0 || ci.minImageCount <= caps.maxImageCount) ==>
              ci.minImageCount <= n && caps.minImageCount <= n &&
              (n == ci.minImageCount || n == caps.minImageCount)
    ensures caps.maxImageCount > 0 && (ci.minImageCount > caps.maxImageCount || caps.minImageCount > caps.maxImageCount) ==>
              n == caps.maxImageCount
  {
    ClampImageCount(caps, if ci.minImageCount < caps.minImageCount then caps.minImageCount else ci.minImageCount)
  }

  // ---------------------------------------------------------------------------
  // Negotiation
  // ---------------------------------------------------------------------------

  /** The request `create` builds from the snapshot and the window size. */
  function Negotiate(details: SupportDetails, window: Extent2D): (q: ChainRequest)
    requires |details.formats| > 0
    requires details.capabilities.minImageCount < UINT32_MAX
    ensures SurfaceFormat(q.imageFormat, q.imageColorSpace) == ChooseSwapSurfaceFormat(details.formats)
    ensures q.presentMode == Mailbox || q.presentMode == Immediate || q.presentMode == Fifo
    ensures q.presentMode != Fifo ==> q.presentMode in details.presentModes
    ensures q.presentMode == ChooseSwapPresentMode(details.presentModes)
    ensures q.imageExtent == ChooseSwapExtent(details.capabilities, window)
    ensures q.minImageCount == CreateImageCount(details.capabilities)
  {
    var sf := ChooseSwapSurfaceFormat(details.formats);
    ChainRequest(
      CreateImageCount(details.capabilities),
      sf.format,
      sf.colorSpace,
      ChooseSwapExtent(details.capabilities, window),
      ChooseSwapPresentMode(details.presentModes))
  }

  /** True when `createBy` falls back to `ChooseSwapSurfaceFormat`, and so
      needs a non-empty format list. */
  predicate NeedsFormatChoice(ci: SwapchainCreateInfo)
  {
    ci.imageFormat.EFormatOther?
  }

  /** The surface format `createBy` uses: a named configured format maps to
      its Vulkan value, any other defers to `ChooseSwapSurfaceFormat`; the
      colour space is SRGB_NONLINEAR whatever the configuration says. */
  function ConfiguredSurfaceFormat(ci: SwapchainCreateInfo, formats: seq<SurfaceFormat>): (r: SurfaceFormat)
    requires NeedsFormatChoice(ci) ==> |formats| > 0
    ensures r.colorSpace == SrgbNonlinear
    ensures ci.imageFormat == EFormatB8G8R8A8Unorm ==> r.format == B8G8R8A8Unorm
    ensures ci.imageFormat == EFormatR8G8B8A8Unorm ==> r.format == R8G8B8A8Unorm
    ensures NeedsFormatChoice(ci) ==> r.format == ChooseSwapSurfaceFormat(formats).format
    ensures NeedsFormatChoice(ci) && (LeavesFormatOpen(formats) || PreferredSurfaceFormat in formats) ==>
              r == PreferredSurfaceFormat
  {
    var format :=
      match ci.imageFormat
      case EFormatB8G8R8A8Unorm => B8G8R8A8Unorm
      case EFormatR8G8B8A8Unorm => R8G8B8A8Unorm
      case EFormatOther(_) => ChooseSwapSurfaceFormat(formats).format;
    var colorSpace :=
      match ci.colorSpace
      case EColorSpaceSrgbNonlinear => SrgbNonlinear
      case EColorSpaceOther(_) => SrgbNonlinear;
    SurfaceFormat(format, colorSpace)
  }

  /** The present mode `createBy` uses: V-Sync forces FIFO; otherwise a named
      configured mode maps one-to-one, and any other defers to
      `ChooseSwapPresentMode`. */
  function ConfiguredPresentMode(ci: SwapchainCreateInfo, modes: seq<PresentMode>): (r: PresentMode)
    ensures ci.bVsync ==> r == Fifo
    ensures !ci.bVsync && ci.presentMode == EPresentImmediate ==> r == Immediate
    ensures !ci.bVsync && ci.presentMode == EPresentMailbox ==> r == Mailbox
    ensures !ci.bVsync && ci.presentMode == EPresentFifo ==> r == Fifo
    ensures !ci.bVsync && ci.presentMode.EPresentOther? ==> r == ChooseSwapPresentMode(modes)
    ensures r == Mailbox || r == Immediate || r == Fifo
  {
    if ci.bVsync then Fifo
    else match ci.presentMode
      case EPresentImmediate => Immediate
      case EPresentMailbox => Mailbox
      case EPresentFifo => Fifo
      case EPresentOther(_) => ChooseSwapPresentMode(modes)
  }

  /** True when the configuration fixes both dimensions of the extent. */
  predicate HasConfiguredSize(ci: SwapchainCreateInfo)
  {
    ci.width > 0 && ci.height > 0
  }

  /** The extent `createBy` uses: a configured size is clamped into the
      supported range, with no regard for `currentExtent`; otherwise it is
      `ChooseSwapExtent`. */
  function ConfiguredExtent(ci: SwapchainCreateInfo, caps: SurfaceCapabilities, window: Extent2D): (r: Extent2D)
    ensures HasConfiguredSize(ci) ==>
              r == ClampExtent(caps.minImageExtent, caps.maxImageExtent, Extent2D(ci.width, ci.height))
    ensures HasConfiguredSize(ci) && WithinExtentRange(caps, Extent2D(ci.width, ci.height)) ==>
              r == Extent2D(ci.width, ci.height)
    ensures !HasConfiguredSize(ci) ==> r == ChooseSwapExtent(caps, window)
  {
    if ci.width > 0 && ci.height > 0 then
      Extent2D(
        Clamp(caps.minImageExtent.width, caps.maxImageExtent.width, ci.width),
        Clamp(caps.minImageExtent.height, caps.maxImageExtent.height, ci.height))
    else ChooseSwapExtent(caps, window)
  }

  /** The request `createBy` builds from the configuration, the snapshot and
      the window size. */
  function NegotiateBy(ci: SwapchainCreateInfo, details: SupportDetails, window: Extent2D): (q: ChainRequest)
    requires NeedsFormatChoice(ci) ==> |details.formats| > 0
    ensures q.imageColorSpace == SrgbNonlinear
    ensures ci.bVsync ==> q.presentMode == Fifo
    ensures q.presentMode == Mailbox || q.presentMode == Immediate || q.presentMode == Fifo
    ensures q.imageFormat == ConfiguredSurfaceFormat(ci, details.formats).format
    ensures q.presentMode == ConfiguredPresentMode(ci, details.presentModes)
    ensures q.imageExtent == ConfiguredExtent(ci, details.capabilities, window)
    ensures q.minImageCount == CreateByImageCount(ci, details.capabilities)
  {
    var sf := ConfiguredSurfaceFormat(ci, details.formats);
    ChainRequest(
      CreateByImageCount(ci, details.capabilities),
      sf.format,
      sf.colorSpace,
      ConfiguredExtent(ci, details.capabilities, window),
      ConfiguredPresentMode(ci, details.presentModes))
  }

  // ---------------------------------------------------------------------------
  // Chain state and lifecycle
  // ---------------------------------------------------------------------------

  /** A `VkImage` handle owned by the chain, opaque to the engine. */
  type Image = nat

  /** What `vkCreateSwapchainKHR` followed by `vkGetSwapchainImagesKHR` answers. */
  datatype DriverReply = Rejected | Created(chainId: nat, images: seq<Image>)

  /** `VkSwapchainKHR`; `NullChain` is `VK_NULL_HANDLE`. */
  datatype ChainHandle = NullChain | Chain(id: nat)

  /** A colour-aspect image view, identified by the image and format
      `VulkanUtils::createImageView` builds it from. */
  datatype ImageView = ImageView(image: Image, format: Format)

  /** The members of `VulkanSwapChain` the lifecycle touches. */
  datatype SwapChain = SwapChain(
    chain: ChainHandle,
    images: seq<Image>,
    imageViews: seq<ImageView>,
    imageFormat: Format,
    colorSpace: ColorSpace,
    extent: Extent2D)

  /** A swap chain on which nothing has been created yet. */
  const Uninitialized: SwapChain := SwapChain(NullChain, [], [], Undefined, SrgbNonlinear, Extent2D(0, 0))

  /** `NE_CORE_ASSERT` on a rejected request, as an error value. */
  datatype CreateError = SwapchainCreationFailed

  datatype Result<T> = Success(value: T) | Failure(error: CreateError)

  /** A GPU object destroyed by `cleanup`, in destruction order. */
  datatype Destroyed = DestroyedView(view: ImageView) | DestroyedChain(chainId: nat)

  /** View `i` is built from image `i` with the chain's format, one per image. */
  predicate ViewsMatchImages(sc: SwapChain)
  {
    && |sc.imageViews| == |sc.images|
    && forall i :: 0 <= i < |sc.images| ==> sc.imageViews[i] == ImageView(sc.images[i], sc.imageFormat)
  }

  /** The lifecycle invariant: a live chain has one view per image; a null
      chain has no views. */
  predicate Valid(sc: SwapChain)
  {
    match sc.chain
    case NullChain => sc.imageViews == []
    case Chain(_) => ViewsMatchImages(sc)
  }

  /** `createImageViews`: one colour view per image, in image order. */
  function CreateImageViews(images: seq<Image>, format: Format): (views: seq<ImageView>)
    ensures |views| == |images|
    ensures forall i :: 0 <= i < |images| ==> views[i] == ImageView(images[i], format)
  {
    if |images| == 0 then []
    else [ImageView(images[0], format)] + CreateImageViews(images[1..], format)
  }

  /** The common tail of `create` and `createBy`: submit the request, take the
      driver's chain and images, and build the views. The previous state is
      overwritten field by field. */
  function Build(sc: SwapChain, q: ChainRequest, driver: ChainRequest -> DriverReply): (r: Result<SwapChain>)
    ensures r.Failure? <==> driver(q).Rejected?
    ensures r.Success? ==>
              && r.value.chain == Chain(driver(q).chainId)
              && r.value.images == driver(q).images
              && r.value.imageFormat == q.imageFormat
              && r.value.colorSpace == q.imageColorSpace
              && r.value.extent == q.imageExtent
              && Valid(r.value)
  {
    match driver(q)
    case Rejected => Failure(SwapchainCreationFailed)
    case Created(id, images) =>
      Success(SwapChain(Chain(id), images, CreateImageViews(images, q.imageFormat),
                        q.imageFormat, q.imageColorSpace, q.imageExtent))
  }

  /** `create` */
  function Create(sc: SwapChain, details: SupportDetails, window: Extent2D,
                  driver: ChainRequest -> DriverReply): (r: Result<SwapChain>)
    requires |details.formats| > 0
    requires details.capabilities.minImageCount < UINT32_MAX
    ensures r.Failure? <==> driver(Negotiate(details, window)).Rejected?
    ensures r.Success? ==>
              && Valid(r.value)
              && r.value.chain.Chain?
              && r.value.images == driver(Negotiate(details, window)).images
              && SurfaceFormat(r.value.imageFormat, r.value.colorSpace) == ChooseSwapSurfaceFormat(details.formats)
              && r.value.extent == ChooseSwapExtent(details.capabilities, window)
  {
    Build(sc, Negotiate(details, window), driver)
  }

  /** `createBy` */
  function CreateBy(sc: SwapChain, ci: SwapchainCreateInfo, details: SupportDetails, window: Extent2D,
                    driver: ChainRequest -> DriverReply): (r: Result<SwapChain>)
    requires NeedsFormatChoice(ci) ==> |details.formats| > 0
    ensures r.Failure? <==> driver(NegotiateBy(ci, details, window)).Rejected?
    ensures r.Success? ==>
              && Valid(r.value)
              && r.value.chain.Chain?
              && r.value.images == driver(NegotiateBy(ci, details, window)).images
              && r.value.imageFormat == ConfiguredSurfaceFormat(ci, details.formats).format
              && r.value.colorSpace == SrgbNonlinear
              && r.value.extent == ConfiguredExtent(ci, details.capabilities, window)
  {
    Build(sc, NegotiateBy(ci, details, window), driver)
  }

  /** The destruction record of a list of views, in list order. */
  function DestroyViews(views: seq<ImageView>): (d: seq<Destroyed>)
    ensures |d| == |views|
    ensures forall i :: 0 <= i < |views| ==> d[i] == DestroyedView(views[i])
  {
    if |views| == 0 then []
    else [DestroyedView(views[0])] + DestroyViews(views[1..])
  }

  /** `cleanup`: destroys every view in order, then the chain if there is one.
      The images, format, colour space and extent are left as they were. */
  function Cleanup(sc: SwapChain): (r: (SwapChain, seq<Destroyed>))
    ensures r.0.imageViews == [] && r.0.chain == NullChain
    ensures r.0.images == sc.images && r.0.imageFormat == sc.imageFormat
    ensures r.0.colorSpace == sc.colorSpace && r.0.extent == sc.extent
    ensures Valid(r.0)
    ensures |r.1| == |sc.imageViews| + (if sc.chain.Chain? then 1 else 0)
    ensures forall i :: 0 <= i < |sc.imageViews| ==> r.1[i] == DestroyedView(sc.imageViews[i])
    ensures sc.chain.Chain? ==> r.1[|r.1| - 1] == DestroyedChain(sc.chain.id)
  {
    var destroyed := DestroyViews(sc.imageViews) +
                     (match sc.chain case NullChain => [] case Chain(id) => [DestroyedChain(id)]);
    (sc.(imageViews := [], chain := NullChain), destroyed)
  }

  /** `recreate`: `cleanup` followed by `create`. */
  function Recreate(sc: SwapChain, details: SupportDetails, window: Extent2D,
                    driver: ChainRequest -> DriverReply): (r: (Result<SwapChain>, seq<Destroyed>))
    requires |details.formats| > 0
    requires details.capabilities.minImageCount < UINT32_MAX
    ensures r.1 == Cleanup(sc).1
    ensures r.0 == Create(Uninitialized, details, window, driver)
    ensures r.0.Success? ==> Valid(r.0.value)
  {
    var (clean, destroyed) := Cleanup(sc);
    CreateIsStateless(clean, Uninitialized, details, window, driver);
    (Create(clean, details, window, driver), destroyed)
  }

  // ---------------------------------------------------------------------------
  // Lifecycle properties
  // ---------------------------------------------------------------------------

  /** `create` overwrites every field it owns: its result does not depend on
      the state it was called on. The driver sees only the request, so a live
      chain is replaced as if it were not there. */
  lemma CreateIsStateless(sc1: SwapChain, sc2: SwapChain, details: SupportDetails, window: Extent2D,
                          driver: ChainRequest -> DriverReply)
    requires |details.formats| > 0
    requires details.capabilities.minImageCount < UINT32_MAX
    ensures Create(sc1, details, window, driver) == Create(sc2, details, window, driver)
  {
  }

  /** A second `cleanup` destroys nothing and leaves the state as it was. */
  lemma CleanupIdempotent(sc: SwapChain)
    ensures Cleanup(Cleanup(sc).0).1 == []
    ensures Cleanup(Cleanup(sc).0).0 == Cleanup(sc).0
  {
  }

  /** `cleanup` does not clear the images: after it, a chain that had images
      has stale image handles and no views. */
  lemma CleanupKeepsStaleImages(sc: SwapChain)
    requires Valid(sc) && sc.chain.Chain? && |sc.images| > 0
    ensures |Cleanup(sc).0.images| != |Cleanup(sc).0.imageViews|
  {
  }

  /** Every lifecycle operation preserves `Valid`, starting from `Uninitialized`. */
  lemma LifecyclePreservesValid(sc: SwapChain, ci: SwapchainCreateInfo, details: SupportDetails,
                                window: Extent2D, driver: ChainRequest -> DriverReply)
    ensures Valid(Uninitialized)
    ensures Valid(Cleanup(sc).0)
    ensures |details.formats| > 0 && details.capabilities.minImageCount < UINT32_MAX ==>
              var r := Create(sc, details, window, driver); r.Success? ==> Valid(r.value)
    ensures (NeedsFormatChoice(ci) ==> |details.formats| > 0) ==>
              var r := CreateBy(sc, ci, details, window, driver); r.Success? ==> Valid(r.value)
  {
  }

  /** With both dimensions configured, `createBy` clamps them and pays no
      attention to the surface's `currentExtent`, sentinel or not. */
  lemma ConfiguredExtentIgnoresCurrentExtent(ci: SwapchainCreateInfo, caps: SurfaceCapabilities,
                                             current: Extent2D, window: Extent2D)
    requires HasConfiguredSize(ci)
    ensures ConfiguredExtent(ci, caps.(currentExtent := current), window) == ConfiguredExtent(ci, caps, window)
    ensures caps.minImageExtent.width <= caps.maxImageExtent.width ==>
              caps.minImageExtent.width <= ConfiguredExtent(ci, caps, window).width <= caps.maxImageExtent.width
    ensures caps.minImageExtent.height <= caps.maxImageExtent.height ==>
              caps.minImageExtent.height <= ConfiguredExtent(ci, caps, window).height <= caps.maxImageExtent.height
  {
  }

  /** A present mode named in the configuration is used without checking it
      against the surface's list; only FIFO is guaranteed to be there. */
  lemma ConfiguredModeNotCheckedAgainstSurface()
    ensures var ci := SwapchainCreateInfo(EFormatOther(0), EColorSpaceSrgbNonlinear, EPresentMailbox, false, 0, 0, 0);
            ConfiguredPresentMode(ci, [Fifo]) == Mailbox && Mailbox !in [Fifo]
  {
  }

  /** `createBy` with a configuration that fixes nothing (no named format or
      mode, no V-Sync, no size) and asks for `minImageCount + 1` images
      negotiates what `create` does, except that the colour space is forced
      to SRGB_NONLINEAR. */
  lemma NeutralConfigurationMatchesCreate(ci: SwapchainCreateInfo, details: SupportDetails, window: Extent2D)
    requires |details.formats| > 0
    requires details.capabilities.minImageCount < UINT32_MAX
    requires NeedsFormatChoice(ci) && !ci.bVsync && ci.presentMode.EPresentOther? && !HasConfiguredSize(ci)
    requires ci.minImageCount == details.capabilities.minImageCount + 1
    ensures NegotiateBy(ci, details, window) == Negotiate(details, window).(imageColorSpace := SrgbNonlinear)
  {
  }

  /** A worked example: min 2 / max 4 images, sentinel current
      extent, an 800x600 window inside [1, 4096] gives 3 images at 800x600,
      and MAILBOX is chosen among {FIFO, MAILBOX}. */
  lemma ExampleNegotiation()
    ensures var caps := SurfaceCapabilities(2, 4, Extent2D(UINT32_MAX, UINT32_MAX),
                                            Extent2D(1, 1), Extent2D(4096, 4096));
            var q := Negotiate(SupportDetails(caps, [PreferredSurfaceFormat], [Fifo, Mailbox]), Extent2D(800, 600));
            q.minImageCount == 3 && q.imageExtent == Extent2D(800, 600) && q.presentMode == Mailbox
  {
  }
}

=== FILE: vk_types.dfy ===
/**
 The small Vulkan vocabulary the swap-chain negotiation works over: 32-bit
 unsigned integers, the pixel-format, colour-space and present-mode
 enumerations, 2D extents, surface formats and the surface-capability
 snapshot reported by the driver (`VkSurfaceCapabilitiesKHR`).

 Each enumeration names the values the engine distinguishes and keeps every
 other value in an `Other…` case whose code excludes the named ones, so that
 every Vulkan value has exactly one representation here and datatype equality
 coincides with the C enumeration's `==`.
 */
module VkTypes {

  /** `std::numeric_limits<uint32_t>::max()`, also the `currentExtent`
      sentinel of section "Surface Queries" of the Vulkan specification. */
  const UINT32_MAX: nat := 0xFFFF_FFFF

  /** A C `uint32_t`. */
  type Uint32 = n: nat | n <= UINT32_MAX

  /** The non-negative range of a C enumeration (a 32-bit `int`). */
  type EnumCode = n: nat | n <= 0x7FFF_FFFF

  // Numeric values of the named enumerators, as the Vulkan headers define them.
  const VK_FORMAT_UNDEFINED: EnumCode := 0
  const VK_FORMAT_R8G8B8A8_UNORM: EnumCode := 37
  const VK_FORMAT_B8G8R8A8_UNORM: EnumCode := 44
  const VK_COLOR_SPACE_SRGB_NONLINEAR_KHR: EnumCode := 0
  const VK_PRESENT_MODE_IMMEDIATE_KHR: EnumCode := 0
  const VK_PRESENT_MODE_MAILBOX_KHR: EnumCode := 1
  const VK_PRESENT_MODE_FIFO_KHR: EnumCode := 2
  const VK_PRESENT_MODE_FIFO_RELAXED_KHR: EnumCode := 3

  type OtherFormatCode = n: EnumCode |
    n != VK_FORMAT_UNDEFINED && n != VK_FORMAT_R8G8B8A8_UNORM && n != VK_FORMAT_B8G8R8A8_UNORM
    witness 1

  type OtherColorSpaceCode = n: EnumCode | n != VK_COLOR_SPACE_SRGB_NONLINEAR_KHR witness 1

  type OtherPresentModeCode = n: EnumCode | n > VK_PRESENT_MODE_FIFO_RELAXED_KHR witness 4

  /** `VkFormat` */
  datatype Format = Undefined | R8G8B8A8Unorm | B8G8R8A8Unorm | OtherFormat(formatCode: OtherFormatCode)

  /** `VkColorSpaceKHR` */
  datatype ColorSpace = SrgbNonlinear | OtherColorSpace(colorSpaceCode: OtherColorSpaceCode)

  /** `VkPresentModeKHR` */
  datatype PresentMode = Immediate | Mailbox | Fifo | FifoRelaxed | OtherPresentMode(modeCode: OtherPresentModeCode)

  /** `VkExtent2D` */
  datatype Extent2D = Extent2D(width: Uint32, height: Uint32)

  /** `VkSurfaceFormatKHR` */
  datatype SurfaceFormat = SurfaceFormat(format: Format, colorSpace: ColorSpace)

  /** The fields of `VkSurfaceCapabilitiesKHR` the negotiation reads
      (`currentTransform` is copied verbatim into the request and left out). */
  datatype SurfaceCapabilities = SurfaceCapabilities(
    minImageCount: Uint32,
    maxImageCount: Uint32,   // 0 means "no upper limit"
    currentExtent: Extent2D, // width UINT32_MAX means "the swap chain decides"
    minImageExtent: Extent2D,
    maxImageExtent: Extent2D)

  /** `std::max(lo, std::min(hi, x))` on `uint32_t`, the per-component clamp
      of the extent selection. */
  function Clamp(lo: Uint32, hi: Uint32, x: Uint32): (r: Uint32)
    ensures lo <= hi ==> lo <= r <= hi
    ensures lo <= x <= hi ==> r == x
    ensures lo <= hi && x < lo ==> r == lo
    ensures lo <= hi && hi < x ==> r == hi
    ensures hi < lo ==> r == lo
  {
    var m := if hi < x then hi else x;
    if lo < m then m else lo
  }

  /** Component-wise clamp of an extent into `[lo, hi]`. */
  function ClampExtent(lo: Extent2D, hi: Extent2D, e: Extent2D): (r: Extent2D)
    ensures lo.width <= hi.width ==> lo.width <= r.width <= hi.width
    ensures lo.height <= hi.height ==> lo.height <= r.height <= hi.height
    ensures lo.width <= e.width <= hi.width && lo.height <= e.height <= hi.height ==> r == e
  {
    Extent2D(Clamp(lo.width, hi.width, e.width), Clamp(lo.height, hi.height, e.height))
  }
}
